=== FILE: README.md ===
# Portfolio site interaction logic, modelled in Dafny

This project models the small pieces of sequential logic in a single-page
portfolio website (a Next.js/React application):

- **Typewriter** (`typewriter.dfy`): the character-by-character reveal of
  `LiquidTypewriter` and the word-by-word reveal of `LiquidTypewriterWords`.
  Each React effect run, together with the timer it schedules, is one pure
  `Step`. The state is the shown text, the index and the completion latch.
  A counter records how often `onComplete` has fired.
- **ContactForm** (`contact_form.dfy`): the contact form's field edits and
  its submit handler. It covers the `try`/`catch`/`finally` outcomes and the
  6-second reset timers. Time is a millisecond clock, and every scheduled
  reset is a pending due time that is never cancelled.
- **MailRoute** (`mail_route.dfy`): the decision logic of the mail
  endpoint's `POST` handler. It covers field validation, the short-circuit
  when credentials are missing, how the mail is built, and the
  200/400/500 answers.
- **OrbLayout** (`orb_layout.dfy`): `generatePositions`, the deterministic
  layout of the background orbs.
- **Gesture** (`gesture.dfy`): the pointer geometry of the tilt effect
  (`GestureInteractive`) and of the magnetic effect (`MagneticElement`),
  over exact reals.
- **Wrappers** (`wrappers.dfy`): the shared `Option` type.
- **Text** (`text.dfy`): `Occurrences`, the character count that the word
  split and the line-break rewrite are both measured by.

The model is functional: immutable datatypes and pure step functions, with
lemmas relating whole event traces.

Things outside these functions are inputs to the model:
- the network answer to the form's `fetch`;
- the parsed request body;
- the `EMAIL_USER`/`EMAIL_PASS` environment variables;
- the mail transport's success or failure;
- the element's bounding rectangle;
- the viewport width;
- the pointer's distance from the element's centre.

Behaviour of the code that the model keeps as it is:
- The magnetic effect has one configuration: a 100 px radius and a 10 px
  maximum offset.
- A new submission does not cancel the previous reset timer. An earlier
  submission's timer can therefore clear a newer banner early; see
  `ContactForm.StaleTimerClearsNewerStatus`.
- The typewriter keeps its state when the text changes. The text is fixed
  for an instance, and no restart is modelled.
- The submit handler does no validation itself. Only the browser's
  `required` attribute and the endpoint check that the fields are filled.
- A failed submission always shows the fixed fallback message. The
  server's `error` text is never shown (`ContactForm.FailureHidesServerError`).
- The word variant splits with JavaScript's `split(' ')`, so an empty text
  has one empty word. It therefore takes one timer tick before it completes
  (`Typewriter.EmptyTextHasOneWord`).

## Model

| member | source | states |
|---|---|---|
| Typewriter.Step | src/components/LiquidTypewriter.tsx:23-35 | a run with text left appends exactly `text[currentIndex]` and advances the index by one; `isComplete` becomes true on the first run with the text used up and is never cleared; `onComplete` fires on a run iff the text is used up and completion was not yet latched, so at most once per run |
| Typewriter.StepPreservesValid | src/components/LiquidTypewriter.tsx:19-27 | every run keeps `displayText == text[..currentIndex]`, `currentIndex <= |text|`, and completion only at the end of the text |
| Typewriter.RunShape | src/components/LiquidTypewriter.tsx:19-35 | after `n` runs from the empty start, `min(n, |text|)` characters are shown, completion is latched iff `n > |text|`, and `onComplete` has fired at most once |
| Typewriter.CompleteIsFixedPoint | src/components/LiquidTypewriter.tsx:31-34 | once complete, further effect runs change nothing, so `onComplete` never fires again |
| Typewriter.CaretShownIff | src/components/LiquidTypewriter.tsx:59 | the caret is drawn after `n` runs iff `n <= |text|`, i.e. until the completing run |
| Typewriter.EmptyTextCompletesAtOnce | src/components/LiquidTypewriter.tsx:23-33 | an empty text shows nothing and is complete, with one `onComplete` call, after the first run |
| Typewriter.RevealFinishes | src/components/LiquidTypewriter.tsx:23-35 | after more than `|text|` runs the whole text is shown, `onComplete` fired exactly once, and the state no longer changes |
| Typewriter.Split | src/components/LiquidTypewriter.tsx:83 | `split(' ')` yields one more piece than there are separators, and no piece contains the separator |
| Typewriter.JoinSplit | src/components/LiquidTypewriter.tsx:83 | joining the split words with the separator gives the text back |
| Typewriter.SplitJoin | src/components/LiquidTypewriter.tsx:83 | splitting the join of separator-free words gives the same words back |
| Typewriter.WordStep | src/components/LiquidTypewriter.tsx:87-98 | a run advances the word index by one while words remain; `isComplete` becomes true on the first run with the words used up and is never cleared; `onComplete` fires iff the words are used up and completion is not latched |
| Typewriter.WordRunShape | src/components/LiquidTypewriter.tsx:84-98 | after `n` runs the word index is `min(n, wordCount)`, completion is latched iff `n > wordCount`, and `onComplete` fired exactly once then and never before |
| Typewriter.Rendered | src/components/LiquidTypewriter.tsx:102 | the drawn words are a prefix of the words of length `min(currentWordIndex + 1, |words|)`, and non-empty whenever there is a word |
| Typewriter.WordsRendered | src/components/LiquidTypewriter.tsx:83-102 | after `n` runs the words `words[..min(n + 1, |words|)]` are drawn: the first word before any tick, and all of them one tick before completion |
| Typewriter.EmptyTextHasOneWord | src/components/LiquidTypewriter.tsx:83-98 | the empty text splits into one empty word and completes only on the second run |
| ContactForm.HandleInputChange | src/components/ContactForm.tsx:30-36 | the named field takes the new value and the other three keep theirs |
| ContactForm.EditsCommute | src/components/ContactForm.tsx:30-36 | edits of different fields commute, a later edit of a field overrides an earlier one, and rewriting a field's own value changes nothing |
| ContactForm.Begin | src/components/ContactForm.tsx:38-41 | before the request, `isSubmitting` is true and the status is idle; fields, message and timers are untouched |
| ContactForm.RequestBody | src/components/ContactForm.tsx:50-55 | the posted body carries exactly the four form fields |
| ContactForm.Settle | src/components/ContactForm.tsx:58-87 | success iff the response is ok, then the fields are cleared and the success message shown; otherwise error with the fixed fallback message and the fields kept; `isSubmitting` is false afterwards and one reset timer is added, due 6000 ms later |
| ContactForm.Later | src/components/ContactForm.tsx:83-86 | the timers still pending after time `t` are exactly those due after `t`, each with its multiplicity, so two timers due at the same time are both kept |
| ContactForm.Elapse | src/components/ContactForm.tsx:83-86 | when any pending timer comes due the status becomes idle with an empty message; otherwise only the clock moves; the timers that fired are removed and every timer not yet due is kept, since none is ever cancelled |
| ContactForm.ApplyPreservesCoherent | src/components/ContactForm.tsx:30-88 | every edit, submission and wait keeps the message matching the status and all pending timers in the future; `isSubmitting` stays false between events because a submission is one atomic step here |
| ContactForm.ReplayPreservesCoherent | src/components/ContactForm.tsx:30-88 | the same holds after any sequence of events |
| ContactForm.BannerShowsMatchingMessage | src/components/ContactForm.tsx:95 | in every reachable state, a visible banner shows the success message with the success status or the fallback message with the error status |
| ContactForm.FailureHidesServerError | src/components/ContactForm.tsx:71-78 | a non-ok response with any error text and a thrown exception lead to the same state |
| ContactForm.ResetAfterDelay | src/components/ContactForm.tsx:79-86 | 6000 ms or more after a submission the banner is gone and the message empty |
| ContactForm.ResetDespiteEdits | src/components/ContactForm.tsx:79-86 | after a submission, any edits and waits without a new submission that add up to 6000 ms or more leave the status idle and the message empty |
| ContactForm.TimerStaysUntilDue | src/components/ContactForm.tsx:83-86 | once the waits reach a pending timer's due time, the status is idle with an empty message, whatever edits come between |
| ContactForm.WaitBeforeDueKeepsStatus | src/components/ContactForm.tsx:83-86 | waiting less than the next due time changes only the clock |
| ContactForm.StaleTimerClearsNewerStatus | src/components/ContactForm.tsx:79-86 | an earlier submission's uncancelled timer clears a newer error banner 1000 ms after the newer submission |
| ContactForm.OutcomeOf | src/components/ContactForm.tsx:58-73 | the form treats the answer as success iff its status is 2xx |
| ContactForm.SuccessIffEndpointAccepts | src/components/ContactForm.tsx:45-78 | with the real endpoint behind it, the form reports success iff all four fields are non-empty and the endpoint either sends the mail or has no credentials |
| MailRoute.BreakLines | src/app/api/send-email/route.ts:77 | the HTML message is `3 * count('\n')` characters longer than the message, since each line feed becomes the four characters `<br>` |
| MailRoute.BreakLinesRemovesLineFeeds | src/app/api/send-email/route.ts:77 | no line feed is left in the HTML message |
| MailRoute.BreakLinesPlain | src/app/api/send-email/route.ts:77 | a message without line feeds is used unchanged |
| MailRoute.BreakLinesAppend | src/app/api/send-email/route.ts:77 | the rewrite distributes over concatenation |
| MailRoute.UnbreakBreakLines | src/app/api/send-email/route.ts:77 | turning each `<br>` back into a line feed recovers any message that has no literal `<br>` |
| MailRoute.MailMessageRecoverable | src/app/api/send-email/route.ts:62-91 | the message can be read back from the mail's HTML message when it holds no literal `<br>` |
| MailRoute.BuildMail | src/app/api/send-email/route.ts:58-107 | the mail goes to the fixed recipient from `EMAIL_USER`, its subject is `"Portfolio Contact: "` followed by the subject, `replyTo` is the sender's email, and the HTML message has no line feed |
| MailRoute.Post | src/app/api/send-email/route.ts:4-124 | the status is 200, 400 or 500; 400 iff a field is missing or empty; a mail is handed over iff the fields are present and credentials configured; 200 iff fields present and either unconfigured or delivered; the `Email sent successfully!` body iff the mail was handed over and delivered; every 500 is the fixed failure body |
| MailRoute.ValidationPrecedesEverything | src/app/api/send-email/route.ts:9-17 | a request with a missing field gets the same 400 answer and no mail whatever the configuration and the transport |
| MailRoute.UnconfiguredShortCircuits | src/app/api/send-email/route.ts:17-35 | without real credentials the answer is the 200 test reply with no mail, whatever the transport would do |
| MailRoute.SentMailFields | src/app/api/send-email/route.ts:58-110 | the mail handed to the transport has the configured sender, the prefixed subject, and the rewritten message of the stated length |
| OrbLayout.OrbAt | src/components/LiquidBackground.tsx:15-20 | left and top lie in [0, 99], duration in [6, 9], delay is half the index |
| OrbLayout.Positions | src/components/LiquidBackground.tsx:12-23 | the layout has `count` entries (none for a negative count), entry `i` being orb `i` |
| OrbLayout.GeneratePositions | src/components/LiquidBackground.tsx:12-23 | the loop builds exactly the layout `Positions(count)` |
| OrbLayout.PositionsPrefix | src/components/LiquidBackground.tsx:25-26 | a shorter layout is a prefix of a longer one, so the 6 particles sit at the first 6 orb positions |
| OrbLayout.DelaysNonDecreasing | src/components/LiquidBackground.tsx:18 | start delays never decrease along the layout |
| OrbLayout.DurationPeriodFour | src/components/LiquidBackground.tsx:19 | durations repeat with period four |
| OrbLayout.LeftPositionsDistinct | src/components/LiquidBackground.tsx:16 | any hundred consecutive orbs have pairwise different left positions |
| OrbLayout.TopPositionsDistinct | src/components/LiquidBackground.tsx:17 | any hundred consecutive orbs have pairwise different top positions |
| Gesture.IsMobile | src/components/GestureInteractive.tsx:30-32 | a viewport counts as mobile iff it is narrower than 768 px; `Dispatch` and `MagneticMove` take the viewport width and are gated on this predicate |
| Gesture.Normalize | src/components/GestureInteractive.tsx:43-51 | a pointer inside the element maps into [-0.5, 0.5] on both axes, the centre maps to (0, 0), and the sign tells the side of the centre |
| Gesture.NormalizeRoundTrip | src/components/GestureInteractive.tsx:43-51 | normalising and mapping back to client coordinates are inverse to each other |
| Gesture.AxisRoundTrip | src/components/GestureInteractive.tsx:47-51 | along one axis, `clientX - rect.left` divided by the width, less 0.5, maps a client coordinate to an offset that maps back to it, and the other way round |
| Gesture.HandleMouseMove | src/components/GestureInteractive.tsx:40-55 | without an element or on mobile the targets stay unchanged; otherwise they are the normalised pointer, inside [-0.5, 0.5] when the pointer is inside |
| Gesture.HandleMouseLeave | src/components/GestureInteractive.tsx:57-60 | leaving resets both targets to 0, which means no tilt |
| Gesture.Dispatch | src/components/GestureInteractive.tsx:29-67 | on a viewport narrower than 768 px no pointer event changes the targets, because neither handler is attached; on a wider one a leave resets them to 0, a move without an attached element changes nothing, and a move over an element sets them to the normalised pointer |
| Gesture.RotationClosedForm | src/components/GestureInteractive.tsx:26-27 | for an offset in [-0.5, 0.5], `rotateX = -30 * intensity * y` and `rotateY = 30 * intensity * x` |
| Gesture.RotationEndpoints | src/components/GestureInteractive.tsx:26-27 | y = -0.5 gives `15 * intensity` and y = 0.5 gives `-15 * intensity`; x has the opposite signs; the centre gives 0 |
| Gesture.RotationBounded | src/components/GestureInteractive.tsx:26-27 | for offsets in [-0.5, 0.5] both tilts lie within `15 * intensity` degrees |
| Gesture.RotationInvertible | src/components/GestureInteractive.tsx:26-27 | with non-zero intensity, equal tilts come from equal offsets in [-0.5, 0.5] |
| Gesture.Force | src/components/GestureInteractive.tsx:125-127 | within the 100 px radius the force lies in (0, 1] and equals 1 exactly at the centre |
| Gesture.ForceStrictlyDecreasing | src/components/GestureInteractive.tsx:127 | the force strictly decreases with distance |
| Gesture.Direction | src/components/GestureInteractive.tsx:126-131 | the direction `(cos, sin)` of the pointer has length one and points at it; at the centre it is the x axis |
| Gesture.MagneticTarget | src/components/GestureInteractive.tsx:125-135 | at 100 px or more the position is exactly (0, 0); closer, its length is `force * 10 * strength` along the pointer's direction |
| Gesture.MagneticAtCentre | src/components/GestureInteractive.tsx:125-132 | a pointer at the centre moves the element `10 * strength` pixels along x |
| Gesture.MagneticPullsTowardPointer | src/components/GestureInteractive.tsx:126-131 | for positive strength the element moves toward the pointer |
| Gesture.MagneticMove | src/components/GestureInteractive.tsx:100-140 | on a viewport narrower than 768 px (listener not attached) or without an element the position is unchanged; otherwise it is (0, 0) at 100 px or more, `10 * strength` along x at the centre, and in between the vector of length `force * 10 * strength` pointing from the element's centre toward the pointer |
| Gesture.MagneticMoveIsTarget | src/components/GestureInteractive.tsx:111-135 | on a viewport at least 768 px wide with the element attached, the position is the magnetic target for the pointer's offset from the element's centre |

## Left out

- Typewriter.Step: strings are sequences of Unicode scalar values, not UTF-16 code units. The component indexes by code unit (`text.length`, `text[currentIndex]`). A character outside the Basic Multilingual Plane, such as an emoji, therefore takes two ticks there, with a lone surrogate shown in between, and one tick in the model. Typewriter.Split counts the same way. The texts the page passes are ASCII.
- Gesture.RotationClosedForm and Gesture.RotationInvertible hold only for offsets in [-0.5, 0.5]. Outside that range `useTransform` clamps its output, and the clamped map is neither linear nor injective.
- framer-motion's springs (`useSpring`), animations and `useTransform` clamping are library code. Only the targets they are fed, and the linear map `useTransform` applies inside its input range, are modelled.
- `Math.sqrt` and `Math.atan2`/`cos`/`sin` are not modelled. The distance is an input tied to the offsets by `d * d == dx * dx + dy * dy`, and `(cos, sin)` of the angle is `(dx, dy) / d`, or `(1, 0)` at the centre. IEEE rounding is not modelled.
- Gesture.Normalize: requires a rectangle of positive width and height; a zero-size element divides by zero in the source, giving NaN or Infinity, which reals cannot express.
- Gesture.IsMobile is the plain predicate `width < 768`. The resize listener that recomputes it, and the listener attach/detach on teardown, are event plumbing and not modelled.
- ContactForm.Settle: the request takes no time in the model. The submission is one step from `Begin` to `Settle`, so read a submission's time in the model as the time its response arrives; the code schedules the reset timer at that moment (ContactForm.tsx:79-86). In the program the newer banner in `ContactForm.StaleTimerClearsNewerStatus` is visible for 1000 + L1 − L2 ms, where L1 and L2 are the two response delays. If the second response takes 1000 + L1 ms or more, the stale timer fires during the request and clears nothing visible. A timer that fires while a request is in flight is not interleaved with it: it only clears a message that `Settle` then overwrites.
- The console logging, the date stamp and the static HTML/text templates of the mail are output formatting. Only the computed parts (sender, recipient, subject, message HTML, reply-to) are modelled.
- MailRoute.Post: request fields that are JSON values other than strings are not modelled; a field is absent or a string.
- The per-character and per-word entrance animations, the timer delays in milliseconds, and restarting the reveal on a text change are not modelled. The code does not restart on a text change.
- LiquidBackground's pointer handlers (cursor styling, random trail particles, DOM insertion and removal) are side effects driven by randomness.
- The page layout, metadata, static content and the EmailJS configuration constants hold no logic.

=== FILE: contact_form.dfy ===
/**
 * The submission state machine of ContactForm.tsx.
 *
 * A form is its four fields, the `isSubmitting`/`submitStatus`/
 * `statusMessage` state, a clock in milliseconds and the due times of the
 * reset timers scheduled so far. The network answer is an input. The
 * handler never cancels a reset timer, so every timer still pending fires,
 * including those of earlier submissions.
 */
module ContactForm {
  import MailRoute
  import opened Wrappers

  datatype Field = Name | Email | Subject | Message

  datatype FormData = FormData(name: string, email: string, subject: string, message: string)

  datatype Status = Idle | Success | Error

  /** What the `fetch` produced: an ok response, a non-ok one carrying an error text, or an exception. */
  datatype Outcome = Ok | NotOk(error: string) | Threw

  datatype Form = Form(
    data: FormData,
    isSubmitting: bool,
    status: Status,
    statusMessage: string,
    now: nat,
    pending: seq<nat>)

  const EmptyData := FormData("", "", "", "")
  const Initial := Form(EmptyData, false, Idle, "", 0, [])

  const SuccessMessage := "Message sent successfully! I'll get back to you soon."
  const FailureMessage := "Failed to send message. Please try again or contact me directly at adityaduggi0@gmail.com"

  /** Milliseconds from the end of a submission until its reset timer fires. */
  const ResetDelay: nat := 6000

  function Get(d: FormData, f: Field): string
  {
    match f
    case Name => d.name
    case Email => d.email
    case Subject => d.subject
    case Message => d.message
  }

  /** `handleInputChange`: the edited field takes the new value; the other three keep theirs. */
  function HandleInputChange(d: FormData, f: Field, value: string): (r: FormData)
    ensures Get(r, f) == value
    ensures forall g :: g != f ==> Get(r, g) == Get(d, g)
  {
    match f
    case Name => d.(name := value)
    case Email => d.(email := value)
    case Subject => d.(subject := value)
    case Message => d.(message := value)
  }

  /** Edits of different fields do not interfere, and a later edit of the same field wins. */
  lemma EditsCommute(d: FormData, f: Field, g: Field, v: string, w: string)
    ensures f != g ==> HandleInputChange(HandleInputChange(d, f, v), g, w) == HandleInputChange(HandleInputChange(d, g, w), f, v)
    ensures HandleInputChange(HandleInputChange(d, f, v), f, w) == HandleInputChange(d, f, w)
    ensures HandleInputChange(d, f, Get(d, f)) == d
  {
  }

  /** The first two updates of `handleSubmit`, made before the request goes out. */
  function Begin(f: Form): (r: Form)
    ensures r.isSubmitting && r.status == Idle
    ensures r.data == f.data && r.statusMessage == f.statusMessage
    ensures r.now == f.now && r.pending == f.pending
  {
    f.(isSubmitting := true, status := Idle)
  }

  /** The JSON body posted to the mail endpoint. */
  function RequestBody(d: FormData): (p: MailRoute.Payload)
    ensures p.name == Some(Get(d, Name)) && p.email == Some(Get(d, Email))
    ensures p.subject == Some(Get(d, Subject)) && p.message == Some(Get(d, Message))
  {
    MailRoute.Payload(Some(d.name), Some(d.email), Some(d.subject), Some(d.message))
  }

  /**
   * The rest of `handleSubmit` once the request has settled: the `try`
   * outcome, the `finally` clear of `isSubmitting`, and a reset timer due
   * `ResetDelay` milliseconds later.
   */
  function Settle(f: Form, outcome: Outcome): (r: Form)
    ensures !r.isSubmitting
    ensures r.status == Success <==> outcome == Ok
    ensures r.status == Error <==> outcome != Ok
    ensures outcome == Ok ==> r.data == EmptyData && r.statusMessage == SuccessMessage
    ensures outcome != Ok ==> r.data == f.data && r.statusMessage == FailureMessage
    ensures r.now == f.now
    ensures r.pending == f.pending + [f.now + ResetDelay]
  {
    var r := match outcome
      case Ok => f.(status := Success, statusMessage := SuccessMessage, data := EmptyData)
      case _ => f.(status := Error, statusMessage := FailureMessage);
    r.(isSubmitting := false, pending := f.pending + [f.now + ResetDelay])
  }

  function Submit(f: Form, outcome: Outcome): Form
  {
    Settle(Begin(f), outcome)
  }

  /** The due times in `pending` that are still in the future at `t`, in order. */
  function Later(pending: seq<nat>, t: nat): (r: seq<nat>)
    ensures forall x :: x in r <==> x in pending && x > t
    ensures forall x :: multiset(r)[x] == if x > t then multiset(pending)[x] else 0
    ensures |r| <= |pending|
    ensures (forall x :: x in pending ==> x > t) ==> r == pending
  {
    if |pending| == 0 then []
    else if pending[0] > t then
      assert forall x :: x in pending[1..] ==> x in pending;
      assert pending == [pending[0]] + pending[1..];
      assert multiset(pending) == multiset([pending[0]]) + multiset(pending[1..]);
      [pending[0]] + Later(pending[1..], t)
    else
      assert pending[0] in pending;
      assert pending == [pending[0]] + pending[1..];
      assert multiset(pending) == multiset([pending[0]]) + multiset(pending[1..]);
      Later(pending[1..], t)
  }

  /** Some timer in `pending` is due at or before `t`. */
  predicate AnyDue(pending: seq<nat>, t: nat) {
    exists x | x in pending :: x <= t
  }

  /**
   * The clock advances by `ms`; every timer that comes due fires, and any
   * firing sets the status back to idle with an empty message.
   */
  function Elapse(f: Form, ms: nat): (r: Form)
    ensures r.now == f.now + ms
    ensures r.pending == Later(f.pending, f.now + ms)
    ensures forall x :: x in r.pending ==> x > r.now
    ensures r.data == f.data && r.isSubmitting == f.isSubmitting
    ensures AnyDue(f.pending, f.now + ms) ==> r.status == Idle && r.statusMessage == ""
    ensures !AnyDue(f.pending, f.now + ms) ==> r.status == f.status && r.statusMessage == f.statusMessage && r.pending == f.pending
  {
    var t := f.now + ms;
    var f' := f.(now := t, pending := Later(f.pending, t));
    if AnyDue(f.pending, t) then f'.(status := Idle, statusMessage := "") else f'
  }

  /** The status banner is shown while the status is not idle. */
  predicate ShowsBanner(f: Form) {
    f.status != Idle
  }

  datatype Event = Edit(field: Field, value: string) | SubmitWith(outcome: Outcome) | Wait(ms: nat)

  function Apply(f: Form, e: Event): Form
  {
    match e
    case Edit(field, value) => f.(data := HandleInputChange(f.data, field, value))
    case SubmitWith(outcome) => Submit(f, outcome)
    case Wait(ms) => Elapse(f, ms)
  }

  /** The form after `events`, applied left to right. */
  function Replay(f: Form, events: seq<Event>): Form
    decreases |events|
  {
    if |events| == 0 then f else Replay(Apply(f, events[0]), events[1..])
  }

  /**
   * What holds between events: no submission is in flight, the message
   * matches the status, and every pending timer is still in the future.
   */
  ghost predicate Coherent(f: Form) {
    && !f.isSubmitting
    && (f.status == Success ==> f.statusMessage == SuccessMessage)
    && (f.status == Error ==> f.statusMessage == FailureMessage)
    && (forall i :: 0 <= i < |f.pending| ==> f.pending[i] > f.now)
  }

  lemma ApplyPreservesCoherent(f: Form, e: Event)
    requires Coherent(f)
    ensures Coherent(Apply(f, e))
  {
    match e
    case Edit(_, _) =>
    case SubmitWith(outcome) =>
      var r := Submit(f, outcome);
      assert forall i :: 0 <= i < |r.pending| ==> r.pending[i] > r.now by {
        forall i | 0 <= i < |r.pending|
          ensures r.pending[i] > r.now
        {
          if i < |f.pending| {
            assert r.pending[i] == f.pending[i];
          }
        }
      }
    case Wait(ms) =>
      var r := Elapse(f, ms);
      assert forall i :: 0 <= i < |r.pending| ==> r.pending[i] > r.now by {
        forall i | 0 <= i < |r.pending|
          ensures r.pending[i] > r.now
        {
          assert r.pending[i] in r.pending;
        }
      }
  }

  /** Every state reachable from the initial form is coherent. */
  lemma {:induction false} ReplayPreservesCoherent(f: Form, events: seq<Event>)
    requires Coherent(f)
    ensures Coherent(Replay(f, events))
    decreases |events|
  {
    if |events| > 0 {
      ApplyPreservesCoherent(f, events[0]);
      ReplayPreservesCoherent(Apply(f, events[0]), events[1..]);
    }
  }

  /** Whenever the banner is up it shows the message that belongs to its status. */
  lemma BannerShowsMatchingMessage(events: seq<Event>)
    ensures var f := Replay(Initial, events);
            ShowsBanner(f) ==>
              (f.status == Success && f.statusMessage == SuccessMessage) ||
              (f.status == Error && f.statusMessage == FailureMessage)
    ensures !Replay(Initial, events).isSubmitting
  {
    ReplayPreservesCoherent(Initial, events);
  }

  /** The server's error text never reaches the user: every failure looks the same. */
  lemma FailureHidesServerError(f: Form, e1: string, e2: string)
    ensures Submit(f, NotOk(e1)) == Submit(f, NotOk(e2)) == Submit(f, Threw)
  {
  }

  /** A submission's own timer resets the banner `ResetDelay` milliseconds later at the latest. */
  lemma ResetAfterDelay(f: Form, outcome: Outcome, ms: nat)
    requires ms >= ResetDelay
    ensures var r := Elapse(Submit(f, outcome), ms);
            r.status == Idle && r.statusMessage == "" && !ShowsBanner(r)
  {
    var s := Submit(f, outcome);
    assert s.pending[|s.pending| - 1] == f.now + ResetDelay;
    assert f.now + ResetDelay in s.pending;
  }

  /** The total time the `Wait` events in `events` let pass. */
  function Waited(events: seq<Event>): nat
  {
    if |events| == 0 then 0
    else (if events[0].Wait? then events[0].ms else 0) + Waited(events[1..])
  }

  /**
   * A submission's own timer clears the banner whatever edits and waits
   * follow it: once `ResetDelay` milliseconds have passed with no new
   * submission, the status is idle and the message empty.
   */
  lemma ResetDespiteEdits(f: Form, outcome: Outcome, events: seq<Event>)
    requires forall i :: 0 <= i < |events| ==> !events[i].SubmitWith?
    requires Waited(events) >= ResetDelay
    ensures var r := Replay(Submit(f, outcome), events);
            r.status == Idle && r.statusMessage == "" && !ShowsBanner(r)
  {
    var b := Begin(f);
    var s := Settle(b, outcome);
    var due := b.now + ResetDelay;
    assert s.pending[|s.pending| - 1] == due;
    TimerStaysUntilDue(s, due, events);
  }

  /**
   * A timer due at `due` stays pending until the clock reaches it, and then
   * resets the status; edits and later waits never bring the banner back.
   */
  lemma {:induction false} TimerStaysUntilDue(g: Form, due: nat, events: seq<Event>)
    requires (g.status == Idle && g.statusMessage == "") || (due in g.pending && due > g.now)
    requires forall i :: 0 <= i < |events| ==> !events[i].SubmitWith?
    requires g.now + Waited(events) >= due
    ensures Replay(g, events).status == Idle && Replay(g, events).statusMessage == ""
    decreases |events|
  {
    if |events| == 0 {
    } else {
      var e := events[0];
      var g' := Apply(g, e);
      assert !e.SubmitWith?;
      assert forall i :: 0 <= i < |events[1..]| ==> !events[1..][i].SubmitWith? by {
        forall i | 0 <= i < |events[1..]| ensures !events[1..][i].SubmitWith? {
          assert events[1..][i] == events[i + 1];
        }
      }
      match e
      case Edit(_, _) =>
        TimerStaysUntilDue(g', due, events[1..]);
      case Wait(ms) =>
        if g.status != Idle || g.statusMessage != "" {
          if g.now + ms >= due {
            assert AnyDue(g.pending, g.now + ms);
          } else {
            assert due in Later(g.pending, g.now + ms);
          }
        }
        TimerStaysUntilDue(g', due, events[1..]);
    }
  }

  /** Before any timer comes due, waiting changes nothing but the clock. */
  lemma WaitBeforeDueKeepsStatus(f: Form, ms: nat)
    requires forall x :: x in f.pending ==> x > f.now + ms
    ensures Elapse(f, ms) == f.(now := f.now + ms)
  {
  }

  /**
   * Reset timers are never cancelled: a success at time 0 followed by a
   * failed resubmission at 5000 ms loses its error banner at 6000 ms, only
   * 1000 ms after the second submission, to the first submission's timer.
   */
  lemma StaleTimerClearsNewerStatus()
    ensures var a := Submit(Initial, Ok);
            var b := Submit(Elapse(a, 5000), Threw);
            && ShowsBanner(b) && b.status == Error
            && !ShowsBanner(Elapse(b, 1000))
  {
    var a := Submit(Initial, Ok);
    assert a.pending == [6000];
    var a' := Elapse(a, 5000);
    assert !AnyDue(a.pending, 5000);
    var b := Submit(a', Threw);
    assert b.pending == [6000, 11000];
    assert 6000 in b.pending;
  }

  /**
   * How the form reads the endpoint's answer: `response.ok` is a 2xx
   * status; otherwise the body's `error`, or a fixed text when it has none,
   * is thrown.
   */
  function OutcomeOf(resp: MailRoute.Response): (o: Outcome)
    ensures o == Ok <==> 200 <= resp.status < 300
  {
    if 200 <= resp.status < 300 then Ok
    else match resp.body
      case ErrorBody(error) => NotOk(if error != "" then error else "Failed to send email")
      case MessageBody(_, _) => NotOk("Failed to send email")
  }

  /**
   * End to end: the form reports success exactly when every field is filled
   * and the endpoint either sends the mail or runs without credentials, in
   * which case nothing is sent at all.
   */
  lemma SuccessIffEndpointAccepts(f: Form, env: MailRoute.Env, send: MailRoute.SendOutcome)
    ensures var o := MailRoute.Post(Some(RequestBody(f.data)), env, send);
            Submit(f, OutcomeOf(o.response)).status == Success <==>
              && f.data.name != "" && f.data.email != "" && f.data.subject != "" && f.data.message != ""
              && (!MailRoute.CredentialsConfigured(env) || send == MailRoute.Delivered)
  {
  }
}

=== FILE: gesture.dfy ===
/**
 * The pointer geometry of GestureInteractive.tsx: the tilt effect
 * (`GestureInteractive`) and the magnetic effect (`MagneticElement`).
 *
 * Coordinates are exact reals. The spring smoothing and the animation are
 * framer-motion's and are not modelled: what is modelled is the target each
 * handler sets and the affine map from a target to a rotation. The pointer's
 * distance from the element's centre is an input, tied to the offsets by
 * `d * d == dx * dx + dy * dy` instead of a square root.
 */
module Gesture {
  import opened Wrappers

  // ---------------------------------------------------------------------
  // Responsive gating
  // ---------------------------------------------------------------------

  /** Viewports narrower than this many pixels count as mobile. */
  const MobileBreakpoint: real := 768.0

  /** `checkMobile`: the effects switch off on narrow viewports. */
  predicate IsMobile(innerWidth: real) {
    innerWidth < MobileBreakpoint
  }

  // ---------------------------------------------------------------------
  // Tilt effect
  // ---------------------------------------------------------------------

  /** An element's bounding client rectangle. */
  datatype Rect = Rect(left: real, top: real, width: real, height: real)

  datatype Vec = Vec(x: real, y: real)

  const Origin: Vec := Vec(0.0, 0.0)

  predicate HasArea(r: Rect) {
    r.width > 0.0 && r.height > 0.0
  }

  predicate Contains(r: Rect, px: real, py: real) {
    r.left <= px <= r.left + r.width && r.top <= py <= r.top + r.height
  }

  /** The pointer as an offset from the rectangle's centre, in fractions of its size. */
  function Normalize(r: Rect, clientX: real, clientY: real): (p: Vec)
    requires HasArea(r)
    ensures Contains(r, clientX, clientY) ==> -0.5 <= p.x <= 0.5 && -0.5 <= p.y <= 0.5
    ensures clientX == r.left + r.width / 2.0 && clientY == r.top + r.height / 2.0 ==> p == Origin
    ensures p.x < 0.0 <==> clientX < r.left + r.width / 2.0
    ensures p.y < 0.0 <==> clientY < r.top + r.height / 2.0
  {
    FractionFacts(clientX - r.left, r.width);
    FractionFacts(clientY - r.top, r.height);
    Vec((clientX - r.left) / r.width - 0.5, (clientY - r.top) / r.height - 0.5)
  }

  /** The client point a normalised offset stands for. */
  function Denormalize(r: Rect, p: Vec): Vec
  {
    Vec(r.left + (p.x + 0.5) * r.width, r.top + (p.y + 0.5) * r.height)
  }

  /** Normalising loses nothing: the two maps are inverse to each other. */
  lemma NormalizeRoundTrip(r: Rect, clientX: real, clientY: real, p: Vec)
    requires HasArea(r)
    ensures Denormalize(r, Normalize(r, clientX, clientY)) == Vec(clientX, clientY)
    ensures Normalize(r, Denormalize(r, p).x, Denormalize(r, p).y) == p
  {
    var q := Denormalize(r, p);
    AxisRoundTrip(r.left, r.width, clientX, p.x, q.x);
    AxisRoundTrip(r.top, r.height, clientY, p.y, q.y);
    var d := Denormalize(r, Normalize(r, clientX, clientY));
    assert d.x == r.left + ((clientX - r.left) / r.width - 0.5 + 0.5) * r.width;
    assert d.y == r.top + ((clientY - r.top) / r.height - 0.5 + 0.5) * r.height;
  }

  /**
   * The round trip along one axis starting at `lo` with length `w`: for a
   * client coordinate `c`, and for the client coordinate `q` of an offset `t`.
   */
  lemma AxisRoundTrip(lo: real, w: real, c: real, t: real, q: real)
    requires w > 0.0 && q == lo + (t + 0.5) * w
    ensures lo + ((c - lo) / w - 0.5 + 0.5) * w == c
    ensures (q - lo) / w - 0.5 == t
  {
    Frac(c - lo, w);
    assert (c - lo) / w - 0.5 + 0.5 == (c - lo) / w;
    DivBack(q - lo, w, t + 0.5);
  }

  lemma DivBack(k: real, w: real, v: real)
    requires w != 0.0 && k == v * w
    ensures k / w == v
  {
  }

  /**
   * `handleMouseMove`: without an attached element, or on a mobile
   * viewport, the targets stay as they are; otherwise they become the
   * normalised pointer position.
   */
  function HandleMouseMove(target: Vec, element: Option<Rect>, isMobile: bool, clientX: real, clientY: real): (r: Vec)
    requires element.Some? ==> HasArea(element.value)
    ensures element.None? || isMobile ==> r == target
    ensures element.Some? && !isMobile && Contains(element.value, clientX, clientY) ==>
              -0.5 <= r.x <= 0.5 && -0.5 <= r.y <= 0.5
    ensures element.Some? && !isMobile ==> Denormalize(element.value, r) == Vec(clientX, clientY)
  {
    if element.None? || isMobile then target
    else
      NormalizeRoundTrip(element.value, clientX, clientY, Origin);
      Normalize(element.value, clientX, clientY)
  }

  /** `handleMouseLeave`: both targets return to the centre. */
  function HandleMouseLeave(target: Vec): (r: Vec)
    ensures r == Origin && RotateX(r.y, 1.0) == 0.0 && RotateY(r.x, 1.0) == 0.0
  {
    Origin
  }

  datatype PointerEvent = Move(clientX: real, clientY: real) | Leave

  /**
   * An event reaching the element on a viewport `innerWidth` pixels wide.
   * On a mobile viewport neither handler is attached, so no event changes
   * the targets.
   */
  function Dispatch(target: Vec, innerWidth: real, element: Option<Rect>, e: PointerEvent): (r: Vec)
    requires element.Some? ==> HasArea(element.value)
    ensures IsMobile(innerWidth) ==> r == target
    ensures !IsMobile(innerWidth) && e.Leave? ==> r == Origin
    ensures !IsMobile(innerWidth) && e.Move? && element.None? ==> r == target
    ensures !IsMobile(innerWidth) && e.Move? && element.Some? ==>
              Denormalize(element.value, r) == Vec(e.clientX, e.clientY)
    ensures !IsMobile(innerWidth) && e.Move? && element.Some? && Contains(element.value, e.clientX, e.clientY) ==>
              -0.5 <= r.x <= 0.5 && -0.5 <= r.y <= 0.5
  {
    var isMobile := IsMobile(innerWidth);
    if isMobile then target
    else match e
      case Move(cx, cy) => HandleMouseMove(target, element, isMobile, cx, cy)
      case Leave => HandleMouseLeave(target)
  }

  /** `useTransform`'s linear map from `[in0, in1]` onto `[out0, out1]`. */
  function Interpolate(v: real, in0: real, in1: real, out0: real, out1: real): real
    requires in0 != in1
  {
    out0 + (v - in0) * (out1 - out0) / (in1 - in0)
  }

  /** The tilt about the horizontal axis from the vertical target. */
  function RotateX(y: real, intensity: real): real
  {
    Interpolate(y, -0.5, 0.5, 15.0 * intensity, -15.0 * intensity)
  }

  /** The tilt about the vertical axis from the horizontal target. */
  function RotateY(x: real, intensity: real): real
  {
    Interpolate(x, -0.5, 0.5, -15.0 * intensity, 15.0 * intensity)
  }

  /** Both rotations are linear with slope 30 degrees per unit of offset, of opposite signs. */
  lemma RotationClosedForm(v: real, intensity: real)
    requires -0.5 <= v <= 0.5
    ensures RotateX(v, intensity) == -30.0 * intensity * v
    ensures RotateY(v, intensity) == 30.0 * intensity * v
  {
  }

  /**
   * The endpoints of the two maps: the top edge tilts by `15 * intensity`
   * and the bottom edge by `-15 * intensity`; the horizontal axis has the
   * opposite sign; the centre does not tilt.
   */
  lemma RotationEndpoints(intensity: real)
    ensures RotateX(-0.5, intensity) == 15.0 * intensity && RotateX(0.5, intensity) == -15.0 * intensity
    ensures RotateY(-0.5, intensity) == -15.0 * intensity && RotateY(0.5, intensity) == 15.0 * intensity
    ensures RotateX(0.0, intensity) == 0.0 && RotateY(0.0, intensity) == 0.0
  {
    RotationClosedForm(0.0, intensity);
  }

  /** For a pointer inside the element, neither tilt exceeds `15 * intensity` degrees. */
  lemma RotationBounded(p: Vec, intensity: real)
    requires -0.5 <= p.x <= 0.5 && -0.5 <= p.y <= 0.5 && intensity >= 0.0
    ensures -15.0 * intensity <= RotateX(p.y, intensity) <= 15.0 * intensity
    ensures -15.0 * intensity <= RotateY(p.x, intensity) <= 15.0 * intensity
  {
    RotationClosedForm(p.y, intensity);
    RotationClosedForm(p.x, intensity);
    assert -0.5 * intensity <= intensity * p.y <= 0.5 * intensity;
    assert -0.5 * intensity <= intensity * p.x <= 0.5 * intensity;
  }

  /** With a non-zero intensity the tilt determines the pointer offset that produced it. */
  lemma RotationInvertible(v: real, w: real, intensity: real)
    requires -0.5 <= v <= 0.5 && -0.5 <= w <= 0.5 && intensity != 0.0
    ensures RotateX(v, intensity) == RotateX(w, intensity) <==> v == w
    ensures RotateY(v, intensity) == RotateY(w, intensity) <==> v == w
  {
    RotationClosedForm(v, intensity);
    RotationClosedForm(w, intensity);
    if RotateX(v, intensity) == RotateX(w, intensity) || RotateY(v, intensity) == RotateY(w, intensity) {
      assert intensity * (v - w) == 0.0;
    }
  }

  // ---------------------------------------------------------------------
  // Magnetic effect
  // ---------------------------------------------------------------------

  /** Pointers at least this many pixels from the centre exert no pull. */
  const MagneticRadius: real := 100.0

  /** The displacement in pixels at full force and unit strength. */
  const MaxOffset: real := 10.0

  /** The pull at distance `d`: one at the centre, falling linearly to zero at the radius. */
  function Force(d: real): (f: real)
    requires 0.0 <= d < MagneticRadius
    ensures 0.0 < f <= 1.0
    ensures d == 0.0 <==> f == 1.0
  {
    (MagneticRadius - d) / MagneticRadius
  }

  lemma ForceStrictlyDecreasing(d1: real, d2: real)
    requires 0.0 <= d1 < d2 < MagneticRadius
    ensures Force(d1) > Force(d2)
  {
  }

  /** The unit direction `(cos, sin)` of `atan2(dy, dx)`; `atan2(0, 0)` is 0, so the centre points along x. */
  function Direction(dx: real, dy: real, d: real): (u: Vec)
    requires d >= 0.0 && d * d == dx * dx + dy * dy
    ensures u.x * u.x + u.y * u.y == 1.0
    ensures d == 0.0 ==> u == Vec(1.0, 0.0)
    ensures d > 0.0 ==> u.x * d == dx && u.y * d == dy
  {
    if d == 0.0 then Vec(1.0, 0.0)
    else
      Frac(dx, d);
      Frac(dy, d);
      UnitLength(dx / d, dy / d, dx, dy, d);
      Vec(dx / d, dy / d)
  }

  /**
   * The position the magnetic handler sets for a pointer at offset
   * `(dx, dy)` and distance `d` from the element's centre.
   */
  function MagneticTarget(dx: real, dy: real, d: real, strength: real): (p: Vec)
    requires d >= 0.0 && d * d == dx * dx + dy * dy
    ensures d >= MagneticRadius ==> p == Origin
    ensures d < MagneticRadius ==>
              var k := Force(d) * MaxOffset * strength;
              p.x * p.x + p.y * p.y == k * k
    ensures d < MagneticRadius && d > 0.0 ==>
              var k := Force(d) * MaxOffset * strength;
              p.x * d == dx * k && p.y * d == dy * k
  {
    if d < MagneticRadius then
      var u := Direction(dx, dy, d);
      var k := Force(d) * MaxOffset * strength;
      ScaledLength(u.x, u.y, k);
      ScaledAlong(u.x, dx, d, k);
      ScaledAlong(u.y, dy, d, k);
      Vec(u.x * k, u.y * k)
    else
      Origin
  }

  /** Right at the centre the element moves `MaxOffset * strength` pixels along the x axis. */
  lemma MagneticAtCentre(strength: real)
    ensures MagneticTarget(0.0, 0.0, 0.0, strength) == Vec(MaxOffset * strength, 0.0)
  {
  }

  /** For a positive strength the element is pulled toward the pointer, never pushed away. */
  lemma MagneticPullsTowardPointer(dx: real, dy: real, d: real, strength: real)
    requires 0.0 < d < MagneticRadius && d * d == dx * dx + dy * dy && strength > 0.0
    ensures var p := MagneticTarget(dx, dy, d, strength);
            p.x * dx + p.y * dy > 0.0
  {
    var p := MagneticTarget(dx, dy, d, strength);
    var k := Force(d) * MaxOffset * strength;
    Positive(Force(d) * MaxOffset, strength);
    Toward(p.x, p.y, dx, dy, d, k);
  }

  /** The centre of a rectangle. */
  function Centre(r: Rect): Vec
  {
    Vec(r.left + r.width / 2.0, r.top + r.height / 2.0)
  }

  /** `d` is the Euclidean distance from `(px, py)` to `c`. */
  predicate IsDistance(c: Vec, px: real, py: real, d: real) {
    d >= 0.0 && d * d == (px - c.x) * (px - c.x) + (py - c.y) * (py - c.y)
  }

  /**
   * The document-wide `mousemove` listener. It is attached only on a
   * desktop viewport and does nothing while the element is not attached.
   */
  function MagneticMove(pos: Vec, innerWidth: real, element: Option<Rect>, clientX: real, clientY: real, d: real, strength: real): (r: Vec)
    requires element.Some? ==> IsDistance(Centre(element.value), clientX, clientY, d)
    ensures IsMobile(innerWidth) || element.None? ==> r == pos
    ensures !IsMobile(innerWidth) && element.Some? && d >= MagneticRadius ==> r == Origin
    ensures !IsMobile(innerWidth) && element.Some? && d < MagneticRadius ==>
              r.x * r.x + r.y * r.y == (Force(d) * MaxOffset * strength) * (Force(d) * MaxOffset * strength)
    ensures !IsMobile(innerWidth) && element.Some? && 0.0 < d < MagneticRadius ==>
              var k := Force(d) * MaxOffset * strength;
              var c := Centre(element.value);
              r.x * d == (clientX - c.x) * k && r.y * d == (clientY - c.y) * k
    ensures !IsMobile(innerWidth) && element.Some? && d == 0.0 ==> r == Vec(MaxOffset * strength, 0.0)
  {
    if IsMobile(innerWidth) || element.None? then pos
    else
      var c := Centre(element.value);
      MagneticTarget(clientX - c.x, clientY - c.y, d, strength)
  }

  /** On a desktop viewport with the element attached, the listener sets exactly the magnetic target. */
  lemma MagneticMoveIsTarget(pos: Vec, innerWidth: real, element: Rect, clientX: real, clientY: real, d: real, strength: real)
    requires !IsMobile(innerWidth) && IsDistance(Centre(element), clientX, clientY, d)
    ensures MagneticMove(pos, innerWidth, Some(element), clientX, clientY, d, strength)
            == MagneticTarget(clientX - Centre(element).x, clientY - Centre(element).y, d, strength)
  {
  }

  // ---------------------------------------------------------------------
  // Real-arithmetic facts the proofs above rely on
  // ---------------------------------------------------------------------

  lemma Frac(a: real, w: real)
    requires w != 0.0
    ensures (a / w) * w == a
  {
  }

  lemma Positive(a: real, b: real)
    requires a > 0.0 && b > 0.0
    ensures a * b > 0.0
  {
  }

  /** Where the fraction `a / w` of a positive length lies, in terms of `a`. */
  lemma FractionFacts(a: real, w: real)
    requires w > 0.0
    ensures 0.0 <= a <= w ==> 0.0 <= a / w <= 1.0
    ensures a == w / 2.0 ==> a / w == 0.5
    ensures a / w < 0.5 <==> a < w / 2.0
  {
    var q := a / w;
    Frac(a, w);
    if q < 0.0 { assert q * w < 0.0; }
    if q > 1.0 { assert q * w > 1.0 * w; }
    if q < 0.5 { assert q * w < 0.5 * w; } else { assert q * w >= 0.5 * w; }
    if a == w / 2.0 { assert (q - 0.5) * w == 0.0; }
  }

  /** A vector that is `(dx, dy)` shrunk by its length `d` has length one. */
  lemma UnitLength(ux: real, uy: real, dx: real, dy: real, d: real)
    requires d > 0.0 && ux * d == dx && uy * d == dy && d * d == dx * dx + dy * dy
    ensures ux * ux + uy * uy == 1.0
  {
    var s := ux * ux + uy * uy;
    calc {
      s * (d * d);
      (ux * d) * (ux * d) + (uy * d) * (uy * d);
      dx * dx + dy * dy;
      d * d;
    }
    Positive(d, d);
    assert (s - 1.0) * (d * d) == 0.0;
  }

  lemma ScaledLength(ux: real, uy: real, k: real)
    requires ux * ux + uy * uy == 1.0
    ensures (ux * k) * (ux * k) + (uy * k) * (uy * k) == k * k
  {
    calc {
      (ux * k) * (ux * k) + (uy * k) * (uy * k);
      (ux * ux + uy * uy) * (k * k);
      k * k;
    }
  }

  lemma ScaledAlong(u: real, du: real, d: real, k: real)
    ensures u * d == du ==> (u * k) * d == du * k
  {
    calc {
      (u * k) * d;
      (u * d) * k;
    }
  }

  /** A displacement `k / d` times `(dx, dy)` with `k, d > 0` points toward `(dx, dy)`. */
  lemma Toward(px: real, py: real, dx: real, dy: real, d: real, k: real)
    requires d > 0.0 && k > 0.0 && d * d == dx * dx + dy * dy
    requires px * d == dx * k && py * d == dy * k
    ensures px * dx + py * dy > 0.0
  {
    var s := px * dx + py * dy;
    calc {
      s * d;
      (px * d) * dx + (py * d) * dy;
      (dx * k) * dx + (dy * k) * dy;
      k * (dx * dx + dy * dy);
      k * (d * d);
      (k * d) * d;
    }
    Positive(k, d);
    assert (s - k * d) * d == 0.0;
  }
}

=== FILE: mail_route.dfy ===
/**
 * The decision logic of the mail endpoint's `POST` handler
 * (src/app/api/send-email/route.ts).
 *
 * The handler's collaborators are inputs here: the parsed JSON body (or its
 * absence when parsing throws), the two environment variables, and whether
 * the mail transport accepted the message. The result is the HTTP response
 * together with the mail handed to the transport, if any.
 */
module MailRoute {
  import opened Wrappers
  import opened Text

  /**
   * The four fields destructured from the request body; `None` is a field
   * the JSON body does not have.
   */
  datatype Payload = Payload(name: Option<string>, email: Option<string>, subject: Option<string>, message: Option<string>)

  /** The `EMAIL_USER` and `EMAIL_PASS` environment variables. */
  datatype Env = Env(user: Option<string>, pass: Option<string>)

  /** What the mail transport does with the message: accept it, or throw. */
  datatype SendOutcome = Delivered | Rejected

  /** The JSON body of a response: `{ error }` or `{ message, note? }`. */
  datatype Body = ErrorBody(error: string) | MessageBody(message: string, note: Option<string>)

  datatype Response = Response(status: int, body: Body)

  /** The parts of the outgoing mail the handler computes from the request. */
  datatype Mail = Mail(from: string, to: string, subject: string, messageHtml: string, replyTo: string)

  /** The response, and the mail given to the transport (`None` when nothing is sent). */
  datatype Outcome = Outcome(response: Response, attempted: Option<Mail>)

  const Recipient := "adityaduggi0@gmail.com"
  const PlaceholderUser := "your-email@gmail.com"
  const SubjectPrefix := "Portfolio Contact: "
  const LineBreak := "<br>"

  const MissingFields := Response(400, ErrorBody("All fields are required"))
  const TestModeReply := Response(200, MessageBody(
    "Email functionality is working! (Check server console for email content)",
    Some("To actually send emails, configure EMAIL_USER and EMAIL_PASS in .env.local")))
  const SentReply := Response(200, MessageBody("Email sent successfully!", None))
  const FailedReply := Response(500, ErrorBody("Failed to send email. Please try again."))

  /** JavaScript truthiness of a string field: present and non-empty. */
  predicate Truthy(v: Option<string>) {
    v.Some? && v.value != ""
  }

  predicate AllFieldsPresent(p: Payload) {
    Truthy(p.name) && Truthy(p.email) && Truthy(p.subject) && Truthy(p.message)
  }

  /** Real credentials are configured: both variables set and the user is not the placeholder. */
  predicate CredentialsConfigured(env: Env) {
    Truthy(env.user) && Truthy(env.pass) && env.user.value != PlaceholderUser
  }

  /** `message.replace(/\n/g, '<br>')`: every line feed becomes an HTML line break. */
  function BreakLines(s: string): (r: string)
    ensures |r| == |s| + 3 * Occurrences(s, '\n')
  {
    if |s| == 0 then ""
    else if s[0] == '\n' then LineBreak + BreakLines(s[1..])
    else [s[0]] + BreakLines(s[1..])
  }

  /** No line feed survives the rewrite. */
  lemma {:induction false} BreakLinesRemovesLineFeeds(s: string)
    ensures '\n' !in BreakLines(s)
  {
    if |s| > 0 {
      BreakLinesRemovesLineFeeds(s[1..]);
      var h := if s[0] == '\n' then LineBreak else [s[0]];
      assert '\n' !in h;
      assert BreakLines(s) == h + BreakLines(s[1..]);
    }
  }

  /** A message without line feeds is sent unchanged. */
  lemma {:induction false} BreakLinesPlain(s: string)
    requires '\n' !in s
    ensures BreakLines(s) == s
  {
    if |s| > 0 {
      assert s[0] in s;
      assert forall x :: x in s[1..] ==> x in s;
      BreakLinesPlain(s[1..]);
      assert s == [s[0]] + s[1..];
    }
  }

  /** The rewrite works piecewise: the line feeds of each part are replaced independently. */
  lemma {:induction false} BreakLinesAppend(a: string, b: string)
    ensures BreakLines(a + b) == BreakLines(a) + BreakLines(b)
  {
    if |a| == 0 {
      assert a + b == b;
    } else {
      var c, rest := a[0], a[1..];
      BreakLinesAppend(rest, b);
      assert a + b == [c] + (rest + b);
      assert a == [c] + rest;
      BreakLinesCons(c, rest + b);
      BreakLinesCons(c, rest);
      ConcatAssoc(if c == '\n' then LineBreak else [c], BreakLines(rest), BreakLines(b));
    }
  }

  lemma ConcatAssoc(x: string, y: string, z: string)
    ensures x + (y + z) == (x + y) + z
  {
  }

  /** The rewrite of a text starting with `c`: the rewrite of `c` followed by that of the rest. */
  lemma BreakLinesCons(c: char, s: string)
    ensures BreakLines([c] + s) == (if c == '\n' then LineBreak else [c]) + BreakLines(s)
  {
    assert ([c] + s)[0] == c && ([c] + s)[1..] == s;
  }

  /** `s` contains `"<br>"` somewhere. */
  predicate HasBreakTag(s: string) {
    exists i | 0 <= i < |s| :: TagAt(s, i)
  }

  /** A `"<br>"` starts at position `i` of `s`. */
  predicate TagAt(s: string, i: int) {
    0 <= i && i + 4 <= |s| && s[i..i + 4] == LineBreak
  }

  /** The inverse rewrite: every `"<br>"` becomes a line feed again. */
  function UnbreakLines(r: string): string
  {
    if |r| == 0 then ""
    else if |r| >= 4 && r[..4] == LineBreak then "\n" + UnbreakLines(r[4..])
    else [r[0]] + UnbreakLines(r[1..])
  }

  /** The first character of the rewrite: `'<'` for a line feed, the character itself otherwise. */
  lemma BreakLinesHead(s: string)
    requires |s| >= 1
    ensures |BreakLines(s)| >= 1
    ensures BreakLines(s)[0] == if s[0] == '\n' then '<' else s[0]
    ensures s[0] != '\n' ==> BreakLines(s)[1..] == BreakLines(s[1..])
  {
  }

  /** A prefix of the rewrite that holds no `'<'` is a prefix of the source text too. */
  lemma {:induction false} PlainPrefix(s: string, p: string)
    requires '<' !in p
    requires |BreakLines(s)| >= |p| && BreakLines(s)[..|p|] == p
    ensures |s| >= |p| && s[..|p|] == p
    decreases |p|
  {
    if |p| > 0 {
      assert |s| >= 1;
      BreakLinesHead(s);
      assert s[0] == p[0];
      assert BreakLines(s[1..])[..|p| - 1] == p[1..];
      PlainPrefix(s[1..], p[1..]);
      assert s[..|p|] == [s[0]] + s[1..][..|p| - 1];
    }
  }

  /** A `"<br>"` at the head of the rewritten text was already in the source text. */
  lemma LeadingTagIsLiteral(s: string)
    requires |s| >= 1 && s[0] != '\n'
    requires |BreakLines(s)| >= 4 && BreakLines(s)[..4] == LineBreak
    ensures TagAt(s, 0)
  {
    var r := BreakLines(s);
    BreakLinesHead(s);
    assert r[0] == r[..4][0] == '<';
    assert r[1..][..3] == r[..4][1..] == "br>";
    PlainPrefix(s[1..], "br>");
    assert s[..4] == [s[0]] + s[1..][..3];
  }

  lemma TagInTail(s: string, i: int)
    requires |s| >= 1 && TagAt(s[1..], i)
    ensures TagAt(s, i + 1)
  {
    assert s[i + 1..i + 5] == s[1..][i..i + 4];
  }

  /**
   * The rewrite can be undone exactly when the message itself holds no
   * `"<br>"`: line feeds and literal tags are otherwise indistinguishable.
   */
  lemma {:induction false} UnbreakBreakLines(s: string)
    requires !HasBreakTag(s)
    ensures UnbreakLines(BreakLines(s)) == s
  {
    if |s| == 0 {
    } else {
      var t := s[1..];
      assert !HasBreakTag(t) by {
        if HasBreakTag(t) {
          var i :| 0 <= i < |t| && TagAt(t, i);
          TagInTail(s, i);
        }
      }
      UnbreakBreakLines(t);
      if s[0] == '\n' {
        var r := LineBreak + BreakLines(t);
        assert r[..4] == LineBreak && r[4..] == BreakLines(t);
      } else {
        if |BreakLines(s)| >= 4 && BreakLines(s)[..4] == LineBreak {
          LeadingTagIsLiteral(s);
        }
        var r := [s[0]] + BreakLines(t);
        assert r[1..] == BreakLines(t);
      }
      assert s == [s[0]] + t;
    }
  }

  /** The mail that route.ts builds on lines 58-107 for a validated request. */
  function BuildMail(user: string, p: Payload): (m: Mail)
    requires AllFieldsPresent(p)
    ensures m.to == Recipient && m.from == user
    ensures m.subject == SubjectPrefix + p.subject.value
    ensures m.replyTo == p.email.value
    ensures '\n' !in m.messageHtml
  {
    BreakLinesRemovesLineFeeds(p.message.value);
    Mail(user, Recipient, SubjectPrefix + p.subject.value, BreakLines(p.message.value), p.email.value)
  }

  /**
   * The handler. `body` is `None` when `request.json()` throws; `send` is
   * what the transport does if the handler reaches it.
   */
  function Post(body: Option<Payload>, env: Env, send: SendOutcome): (o: Outcome)
    ensures o.response.status in {200, 400, 500}
    ensures o.response.status == 400 <==> body.Some? && !AllFieldsPresent(body.value)
    ensures o.response.status == 400 ==> o.response == MissingFields
    ensures o.attempted.Some? <==> body.Some? && AllFieldsPresent(body.value) && CredentialsConfigured(env)
    ensures o.response.status == 200 <==>
              body.Some? && AllFieldsPresent(body.value) && (!CredentialsConfigured(env) || send == Delivered)
    ensures o.response == TestModeReply <==> body.Some? && AllFieldsPresent(body.value) && !CredentialsConfigured(env)
    ensures o.response.status == 500 ==> o.response == FailedReply
    ensures o.response == SentReply <==>
              body.Some? && AllFieldsPresent(body.value) && CredentialsConfigured(env) && send == Delivered
    ensures o.attempted.Some? ==> o.attempted.value.to == Recipient && o.attempted.value.replyTo == body.value.email.value
  {
    match body
    case None => Outcome(FailedReply, None)
    case Some(p) =>
      if !AllFieldsPresent(p) then
        Outcome(MissingFields, None)
      else if !CredentialsConfigured(env) then
        Outcome(TestModeReply, None)
      else
        var mail := BuildMail(env.user.value, p);
        match send
        case Delivered => Outcome(SentReply, Some(mail))
        case Rejected => Outcome(FailedReply, Some(mail))
  }

  /**
   * Validation comes first: a request missing a field gets the same 400
   * answer whatever the configuration and the transport would do.
   */
  lemma ValidationPrecedesEverything(p: Payload, env1: Env, env2: Env, send1: SendOutcome, send2: SendOutcome)
    requires !AllFieldsPresent(p)
    ensures Post(Some(p), env1, send1) == Post(Some(p), env2, send2) == Outcome(MissingFields, None)
  {
  }

  /** Without real credentials nothing is sent and the answer does not depend on the transport. */
  lemma UnconfiguredShortCircuits(p: Payload, env: Env, send1: SendOutcome, send2: SendOutcome)
    requires AllFieldsPresent(p) && !CredentialsConfigured(env)
    ensures Post(Some(p), env, send1) == Post(Some(p), env, send2) == Outcome(TestModeReply, None)
  {
  }

  /** A message without a literal `"<br>"` can be read back from the mail's HTML. */
  lemma MailMessageRecoverable(user: string, p: Payload)
    requires AllFieldsPresent(p) && !HasBreakTag(p.message.value)
    ensures UnbreakLines(BuildMail(user, p).messageHtml) == p.message.value
  {
    UnbreakBreakLines(p.message.value);
  }

  /** The mail handed to the transport carries the submitted fields as the handler formats them. */
  lemma SentMailFields(p: Payload, env: Env, send: SendOutcome)
    requires AllFieldsPresent(p) && CredentialsConfigured(env)
    ensures var m := Post(Some(p), env, send).attempted.value;
            && m.from == env.user.value
            && m.subject == SubjectPrefix + p.subject.value
            && m.messageHtml == BreakLines(p.message.value)
            && |m.messageHtml| == |p.message.value| + 3 * Occurrences(p.message.value, '\n')
  {
  }
}

=== FILE: orb_layout.dfy ===
/**
 * The deterministic orb layout of LiquidBackground.tsx (`generatePositions`).
 *
 * Orb `i` sits at `left = (37i + 23) mod 100` and `top = (47i + 17) mod 100`
 * percent, starts after `i / 2` seconds and animates for `6 + i mod 4`
 * seconds. The index is never negative, so JavaScript's `%` and Dafny's
 * agree here.
 */
module OrbLayout {

  datatype Orb = Orb(left: int, top: int, delay: real, duration: int)

  /** The orb at index `i`. */
  function OrbAt(i: nat): (o: Orb)
    ensures 0 <= o.left <= 99 && 0 <= o.top <= 99
    ensures 6 <= o.duration <= 9
    ensures o.delay >= 0.0
    ensures 2.0 * o.delay == i as real
  {
    Orb((i * 37 + 23) % 100, (i * 47 + 17) % 100, i as real * 0.5, 6 + i % 4)
  }

  /** The layout for `count` orbs: one per index, in index order; a negative count gives none. */
  function Positions(count: int): (ps: seq<Orb>)
    ensures |ps| == if count < 0 then 0 else count
    ensures forall i :: 0 <= i < |ps| ==> ps[i] == OrbAt(i)
  {
    if count <= 0 then [] else Positions(count - 1) + [OrbAt(count - 1)]
  }

  /** `generatePositions`: the loop that pushes one orb per index. */
  method GeneratePositions(count: int) returns (positions: seq<Orb>)
    ensures positions == Positions(count)
  {
    positions := [];
    var i := 0;
    while i < count
      invariant 0 <= i <= (if count < 0 then 0 else count)
      invariant |positions| == i
      invariant forall j :: 0 <= j < i ==> positions[j] == OrbAt(j)
    {
      positions := positions + [OrbAt(i)];
      i := i + 1;
    }
  }

  /** A shorter layout is a prefix of a longer one: the six particles sit where the first six orbs do. */
  lemma PositionsPrefix(m: nat, n: nat)
    requires m <= n
    ensures Positions(m) == Positions(n)[..m]
  {
  }

  /** Start delays never decrease along the layout. */
  lemma DelaysNonDecreasing(count: int, i: nat, j: nat)
    requires i <= j < count
    ensures Positions(count)[i].delay <= Positions(count)[j].delay
  {
  }

  /** Every fourth orb repeats the same duration. */
  lemma DurationPeriodFour(i: nat)
    ensures OrbAt(i + 4).duration == OrbAt(i).duration
  {
    var q, m := i / 4, i % 4;
    assert i == 4 * q + m && 0 <= m < 4;
    assert i + 4 == 4 * (q + 1) + m;
    assert (i + 4) % 4 == m;
  }

  /**
   * 37 is invertible modulo 100 (37 * 73 = 2701), so any hundred consecutive
   * orbs occupy a hundred different horizontal positions.
   */
  lemma LeftPositionsDistinct(i: nat, j: nat)
    requires i < j < i + 100
    ensures OrbAt(i).left != OrbAt(j).left
  {
    var a, b := i * 37 + 23, j * 37 + 23;
    var d := j - i;
    assert b - a == 37 * d;
    ResidueStep(a, b);
    InverseOf37(d);
  }

  /** Likewise for 47 (47 * 83 = 3901) and the vertical positions. */
  lemma TopPositionsDistinct(i: nat, j: nat)
    requires i < j < i + 100
    ensures OrbAt(i).top != OrbAt(j).top
  {
    var a, b := i * 47 + 17, j * 47 + 17;
    var d := j - i;
    assert b - a == 47 * d;
    ResidueStep(a, b);
    InverseOf47(d);
  }

  /** Residues modulo 100 that agree leave a difference divisible by 100. */
  lemma ResidueStep(a: nat, b: nat)
    requires a <= b
    ensures a % 100 == b % 100 ==> (b - a) % 100 == 0
  {
    var qa, qb := a / 100, b / 100;
    assert a == 100 * qa + a % 100;
    assert b == 100 * qb + b % 100;
    assert b - a == 100 * (qb - qa) + (b % 100 - a % 100);
  }

  /** Multiplying by 37 maps 1..99 to non-multiples of 100. */
  lemma InverseOf37(d: int)
    requires 0 < d < 100
    ensures (37 * d) % 100 != 0
  {
    var k, m := (37 * d) / 100, (37 * d) % 100;
    assert 37 * d == 100 * k + m;
    assert 2701 * d == 7300 * k + 73 * m;
    assert d == 100 * (73 * k - 27 * d) + 73 * m;
  }

  /** Multiplying by 47 maps 1..99 to non-multiples of 100. */
  lemma InverseOf47(d: int)
    requires 0 < d < 100
    ensures (47 * d) % 100 != 0
  {
    var k, m := (47 * d) / 100, (47 * d) % 100;
    assert 47 * d == 100 * k + m;
    assert 3901 * d == 8300 * k + 83 * m;
    assert d == 100 * (83 * k - 39 * d) + 83 * m;
  }
}

=== FILE: text.dfy ===
/** Character counting shared by the string operations of this model. */
module Text {

  /** Number of occurrences of `c` in `s`. */
  function Occurrences(s: string, c: char): nat
  {
    if |s| == 0 then 0 else (if s[0] == c then 1 else 0) + Occurrences(s[1..], c)
  }
}

=== FILE: typewriter.dfy ===
/**
 * The two text-reveal components of LiquidTypewriter.tsx.
 *
 * React re-runs each component's effect whenever its state changes. One run
 * of that effect, together with the timer it schedules, is one `Step` here:
 * while text remains, the timer fires and reveals one more unit; once the
 * text is used up, the first run latches `isComplete` and calls `onComplete`;
 * every later run does nothing. The text is fixed for the life of an
 * instance: the component never resets its state when the text changes.
 */
module Typewriter {
  import opened Text

  // ---------------------------------------------------------------------
  // Character-by-character reveal (LiquidTypewriter)
  // ---------------------------------------------------------------------

  /** The component state; `completions` counts the calls of `onComplete`. */
  datatype Reveal = Reveal(displayText: string, currentIndex: nat, isComplete: bool, completions: nat)

  /** The state `useState` starts from. */
  const Start: Reveal := Reveal("", 0, false, 0)

  /** The relation every reachable state keeps with the text being revealed. */
  ghost predicate Valid(text: string, s: Reveal) {
    && s.currentIndex <= |text|
    && s.displayText == text[..s.currentIndex]
    && (s.isComplete ==> s.currentIndex == |text|)
    && s.completions == (if s.isComplete then 1 else 0)
  }

  /** One effect run: reveal the next character, or latch completion once. */
  function Step(text: string, s: Reveal): (r: Reveal)
    ensures s.currentIndex < |text| ==>
              && r.displayText == s.displayText + [text[s.currentIndex]]
              && r.currentIndex == s.currentIndex + 1
              && |r.displayText| == |s.displayText| + 1
              && r.completions == s.completions
    ensures s.currentIndex >= |text| ==> r.displayText == s.displayText && r.currentIndex == s.currentIndex
    ensures r.completions > s.completions <==> s.currentIndex >= |text| && !s.isComplete
    ensures r.completions <= s.completions + 1
    ensures r.isComplete == (s.isComplete || s.currentIndex >= |text|)
  {
    if s.currentIndex < |text| then
      s.(displayText := s.displayText + [text[s.currentIndex]], currentIndex := s.currentIndex + 1)
    else if !s.isComplete then
      s.(isComplete := true, completions := s.completions + 1)
    else
      s
  }

  /** The state after `n` effect runs from `Start`. */
  function Run(text: string, n: nat): Reveal
  {
    if n == 0 then Start else Step(text, Run(text, n - 1))
  }

  /** The caret is drawn after the revealed text until the reveal completes. */
  predicate ShowsCaret(s: Reveal) {
    !s.isComplete
  }

  lemma StartIsValid(text: string)
    ensures Valid(text, Start)
    ensures Start.displayText == "" && Start.currentIndex == 0
  {
  }

  /** Every effect run keeps the displayed text equal to the revealed prefix. */
  lemma StepPreservesValid(text: string, s: Reveal)
    requires Valid(text, s)
    ensures Valid(text, Step(text, s))
  {
    if s.currentIndex < |text| {
      assert text[..s.currentIndex + 1] == text[..s.currentIndex] + [text[s.currentIndex]];
    }
  }

  /** Once complete, an effect run changes nothing: `onComplete` never fires again. */
  lemma CompleteIsFixedPoint(text: string, s: Reveal)
    requires Valid(text, s) && s.isComplete
    ensures Step(text, s) == s
  {
  }

  /**
   * After `n` effect runs exactly `min(n, |text|)` characters are shown, the
   * reveal is complete exactly when `n > |text|`, and `onComplete` has
   * fired once if complete and never otherwise.
   */
  lemma {:induction false} RunShape(text: string, n: nat)
    ensures Valid(text, Run(text, n))
    ensures Run(text, n).currentIndex == if n <= |text| then n else |text|
    ensures Run(text, n).displayText == text[..if n <= |text| then n else |text|]
    ensures Run(text, n).isComplete <==> n > |text|
    ensures Run(text, n).completions <= 1
  {
    if n == 0 {
      StartIsValid(text);
    } else {
      RunShape(text, n - 1);
      StepPreservesValid(text, Run(text, n - 1));
    }
  }

  /** The caret is visible after `n` runs iff some character is still to come or the last one was just revealed. */
  lemma CaretShownIff(text: string, n: nat)
    ensures ShowsCaret(Run(text, n)) <==> n <= |text|
  {
    RunShape(text, n);
  }

  /** An empty text shows nothing and is complete after the first effect run. */
  lemma EmptyTextCompletesAtOnce()
    ensures Run("", 1).isComplete && Run("", 1).displayText == "" && Run("", 1).completions == 1
  {
  }

  /** The whole text is revealed and `onComplete` has fired exactly once after `|text| + 1` runs, and stays so. */
  lemma RevealFinishes(text: string, n: nat)
    requires n > |text|
    ensures Run(text, n).displayText == text
    ensures Run(text, n).completions == 1
    ensures Run(text, n + 1) == Run(text, n)
  {
    RunShape(text, n);
    CompleteIsFixedPoint(text, Run(text, n));
  }

  // ---------------------------------------------------------------------
  // Word-by-word reveal (LiquidTypewriterWords)
  // ---------------------------------------------------------------------

  /**
   * JavaScript's `String.prototype.split` with a one-character separator:
   * the pieces between separators, so `""` splits into `[""]`.
   */
  function Split(s: string, sep: char): (r: seq<string>)
    ensures |r| == Occurrences(s, sep) + 1
    ensures forall i :: 0 <= i < |r| ==> sep !in r[i]
  {
    if |s| == 0 then [""]
    else
      var rest := Split(s[1..], sep);
      if s[0] == sep then [""] + rest else [[s[0]] + rest[0]] + rest[1..]
  }

  /** The pieces glued back together with the separator between neighbours. */
  function Join(ws: seq<string>, sep: char): string
    requires |ws| >= 1
  {
    if |ws| == 1 then ws[0] else ws[0] + [sep] + Join(ws[1..], sep)
  }

  lemma {:induction false} JoinConsHead(c: char, ws: seq<string>, sep: char)
    requires |ws| >= 1
    ensures Join([[c] + ws[0]] + ws[1..], sep) == [c] + Join(ws, sep)
  {
    var ws' := [[c] + ws[0]] + ws[1..];
    if |ws| == 1 {
    } else {
      assert ws'[1..] == ws[1..];
    }
  }

  /** Splitting loses nothing: joining the words with the separator gives the text back. */
  lemma {:induction false} JoinSplit(s: string, sep: char)
    ensures Join(Split(s, sep), sep) == s
  {
    if |s| == 0 {
    } else {
      var rest := Split(s[1..], sep);
      JoinSplit(s[1..], sep);
      if s[0] == sep {
        assert ([""] + rest)[1..] == rest;
        assert s == [s[0]] + s[1..];
      } else {
        JoinConsHead(s[0], rest, sep);
        assert s == [s[0]] + s[1..];
      }
    }
  }

  /** A piece without the separator splits into itself. */
  lemma {:induction false} SplitPlain(w: string, sep: char)
    requires sep !in w
    ensures Split(w, sep) == [w]
  {
    if |w| > 0 {
      SplitPlain(w[1..], sep);
      assert w == [w[0]] + w[1..];
    }
  }

  /** Splitting at the first separator peels off the piece before it. */
  lemma {:induction false} SplitAtSeparator(w: string, rest: string, sep: char)
    requires sep !in w
    ensures Split(w + [sep] + rest, sep) == [w] + Split(rest, sep)
  {
    var s := w + [sep] + rest;
    if |w| == 0 {
      assert s == [sep] + rest;
      assert s[1..] == rest;
    } else {
      assert s[1..] == w[1..] + [sep] + rest;
      SplitAtSeparator(w[1..], rest, sep);
      assert w == [w[0]] + w[1..];
    }
  }

  /** Joining pieces that hold no separator and splitting again gives the same pieces. */
  lemma {:induction false} SplitJoin(ws: seq<string>, sep: char)
    requires |ws| >= 1
    requires forall i :: 0 <= i < |ws| ==> sep !in ws[i]
    ensures Split(Join(ws, sep), sep) == ws
  {
    if |ws| == 1 {
      SplitPlain(ws[0], sep);
    } else {
      SplitJoin(ws[1..], sep);
      SplitAtSeparator(ws[0], Join(ws[1..], sep), sep);
      assert ws == [ws[0]] + ws[1..];
    }
  }

  /** The state of one LiquidTypewriterWords instance. */
  datatype WordReveal = WordReveal(currentWordIndex: nat, isComplete: bool, completions: nat)

  const WordStart: WordReveal := WordReveal(0, false, 0)

  /** One effect run over a text of `wordCount` words. */
  function WordStep(wordCount: nat, s: WordReveal): (r: WordReveal)
    ensures s.currentWordIndex < wordCount ==> r.currentWordIndex == s.currentWordIndex + 1 && r.completions == s.completions
    ensures s.currentWordIndex >= wordCount ==> r.currentWordIndex == s.currentWordIndex
    ensures r.completions > s.completions <==> s.currentWordIndex >= wordCount && !s.isComplete
    ensures r.completions <= s.completions + 1
    ensures r.isComplete == (s.isComplete || s.currentWordIndex >= wordCount)
  {
    if s.currentWordIndex < wordCount then
      s.(currentWordIndex := s.currentWordIndex + 1)
    else if !s.isComplete then
      s.(isComplete := true, completions := s.completions + 1)
    else
      s
  }

  function WordRun(wordCount: nat, n: nat): WordReveal
  {
    if n == 0 then WordStart else WordStep(wordCount, WordRun(wordCount, n - 1))
  }

  /** The words drawn: `words.slice(0, currentWordIndex + 1)`. */
  function Rendered(words: seq<string>, s: WordReveal): (r: seq<string>)
    ensures |words| >= 1 ==> |r| >= 1
    ensures r <= words
    ensures |r| == if s.currentWordIndex + 1 <= |words| then s.currentWordIndex + 1 else |words|
  {
    if s.currentWordIndex + 1 <= |words| then words[..s.currentWordIndex + 1] else words
  }

  /** The words of a text, as the component computes them. */
  function Words(text: string): seq<string>
  {
    Split(text, ' ')
  }

  /**
   * After `n` runs the word index is `min(n, wordCount)`, completion is
   * latched exactly when `n > wordCount`, and `onComplete` fired once,
   * on the completing run, and never before.
   */
  lemma {:induction false} WordRunShape(wordCount: nat, n: nat)
    ensures WordRun(wordCount, n).currentWordIndex == if n <= wordCount then n else wordCount
    ensures WordRun(wordCount, n).isComplete <==> n > wordCount
    ensures WordRun(wordCount, n).completions == if n > wordCount then 1 else 0
  {
    if n > 0 {
      WordRunShape(wordCount, n - 1);
    }
  }

  /**
   * What the word variant draws after `n` runs: the first word is visible
   * before any timer fires, and every word is already visible one run before
   * the last timer fires.
   */
  lemma WordsRendered(text: string, n: nat)
    ensures var words := Words(text);
            Rendered(words, WordRun(|words|, n)) == words[..if n + 1 <= |words| then n + 1 else |words|]
    ensures |Rendered(Words(text), WordRun(|Words(text)|, 0))| == 1
    ensures n + 1 >= |Words(text)| ==> Rendered(Words(text), WordRun(|Words(text)|, n)) == Words(text)
  {
    var words := Words(text);
    WordRunShape(|words|, n);
    WordRunShape(|words|, 0);
  }

  /** An empty text still has one (empty) word, so its reveal takes one timer tick before completing. */
  lemma EmptyTextHasOneWord()
    ensures Words("") == [""]
    ensures !WordRun(1, 1).isComplete && WordRun(1, 2).isComplete
  {
  }
}

=== FILE: wrappers.dfy ===
/** The optional-value datatype shared by the modules of this model. */
module Wrappers {

  /** A value that may be absent: a missing JSON field, a React ref not yet attached. */
  datatype Option<+T> = None | Some(value: T)
}
